=== FILE: README.md ===
# Ultimate Cube Battle — movement and collision core, in Dafny

This project models the per-tick movement and collision logic of the player
character of *Ultimate Cube Battle* (`Main.py`): the tile layout of the
screen, the collision pass of `CollisionHandler` over the ordered platform
list, the three-state gravity machine (Falling / Digging / Idle, the source's
`Cayendo` / `Cavando` / `Quieto`) with its jump and dig latches, and the
integrator of `Personaje` — gravity, braking (`frenar`), input
(`actualizar_velocidades`), respawn (`muerto`) and the move itself (`mover`) —
together with the platform registry (`controlador_plataformas`).

Everything is a pure function over immutable records. Positions and
velocities are `real`; Python's `int()` on a float is `Numeric.Trunc`
(truncation toward zero) and the tick quantisation `int(v*dt*10)/10` is
`Numeric.Scale`. Tile arithmetic is on `nat`, where Python's `//` agrees with
Dafny's `/`. Source names map as follows: `accion_gravedad` → `ApplyGravity`,
`frenar` → `Brake` (`BrakeX`, `BrakeY`), `actualizar_velocidades` →
`ApplyInput`, `muerto` → `CheckDeath`, `mover` → `Move`,
`actualizar_posicion_rects` → `SyncProbes`, `reiniciar_posicion` →
`ResetPosition`, `check_collisions` → `CheckCollisions`,
`update_character_state` → `UpdateState`, `salto` → `jumpReady`, `cavar` →
`digReady`, `ensima_Colision` → `support`; `Game.Tick` is
`calcular_colision` followed by `mover`, the pair the game loop calls every
frame.

Modules: `Optional`, `Numeric`, `Geometry`, `GameConstants`, `Screen`,
`Character`, `Collision`, `Physics`, `Platforms`, `Game`, one file each.

Points of `Main.py` that are easy to misread, and that the model reproduces:

- Braking with a horizontal key held subtracts `int(freno/10)`, a truncated
  value, not `freno/10`; for usual sizes this is 0.
- Vertical braking without vertical keys slows a rising character by
  `int(freno)`, not by `freno/1.5`; only a falling one uses `int(freno/1.5)`.
- The gentle horizontal braking (`freno/10`) applies while the jump latch is
  *clear*; the quantise-then-subtract braking applies while it is armed.
- When several platforms overlap the bottom probe, the *last* one in list
  order becomes the support.
- Respawn deals no damage: the code has no health.
- `muerto` keeps the gravity state, so an Idle character that respawns is
  pinned back onto its platform by the same tick's gravity step.

## Model

| member | source | states |
|---|---|---|
| Numeric.Trunc | Main.py:302-303 | `int()` truncates toward zero: the result is within one of `x`, never farther from zero, with the sign of `x` |
| Numeric.TruncOdd | Main.py:337-343 | truncation of `-x` is minus the truncation of `x` |
| Numeric.Scale | Main.py:302-303 | the scaled velocity is a whole number of tenths, between 0 and `v*dt` and less than a tenth short of it |
| Numeric.ScaleZero | Main.py:302-303 | a zero velocity scales to zero displacement |
| Screen.CalculateTileSize | Main.py:76-82 | fails exactly when the width is under 30 (tile size 0); otherwise the tiles plus border fill each axis exactly, each border is smaller than a tile, 30 <= tiles_x < 60, and a screen at least one tile high has a tile row |
| Screen.SpawnX | Main.py:290-295 | the respawn x is the centre of the tiled width (within a pixel), offset by half the left-over border |
| Screen.SpawnY | Main.py:290-295 | the respawn y is the centre of the tiled height (within a pixel), offset by half the border |
| Screen.SpawnAboveKillLine | Main.py:290-295 | with borders smaller than a tile and at least one tile row, the spawn point is not below the kill line |
| Character.NewCharacter | Main.py:207-224 | a new character has consistent probes, zero velocity, Falling state, both latches clear, no support, and tuning values size/15, size/5, size/13, size/5 |
| Character.SensorsOf | Main.py:235-241 | the collision pass sees the body, the top probe and the bottom probe, and no side probe; with consistent probes the top probe ends where the body starts and the bottom probe starts where it ends, in the body's column |
| Character.SyncProbes | Main.py:250-259 | afterwards top = (x, y - size/2), bottom = (x, y + size), right = (x + size, y), left = (x - size/2, y); each probe keeps its width and height, and the body is untouched |
| Character.SyncProbesFixesConsistent | Main.py:250-259 | resynchronising consistent probes is a no-op |
| Character.Place | Main.py:265-267 | moving the body and resynchronising keeps the probe invariant and changes nothing but the rectangles |
| Character.ResetPosition | Main.py:261-267 | velocity becomes exactly (0, 0), the body is at the given point, the probes stay consistent, state, latches and support are kept |
| Character.ResetForgetsVelocity | Main.py:261-267 | the reset outcome does not depend on the velocity before it |
| Character.ResetIdempotent | Main.py:261-267 | resetting twice to a point equals resetting once |
| Collision.CheckCollisions | Main.py:171-183 | body/top/bottom are set exactly when some platform overlaps the main/top/bottom probe; the recorded platform exists exactly when bottom is set and is the last platform in list order overlapping the bottom probe |
| Collision.CheckCollisionsLoop | Main.py:172-183 | the source's loop over the platforms computes the same flags and platform as the fold, so the recorded platform is the last one overlapping the bottom probe |
| Collision.NoPlatformsNoContact | Main.py:172-174 | an empty platform list yields all flags false and no platform |
| Collision.LaterPlatformWins | Main.py:179-181 | a platform appended after others and overlapping the bottom probe is the one recorded |
| Collision.UpdateState | Main.py:186-204 | without bottom contact the state is Falling and digging is disarmed whatever body, top or "down" say; with bottom contact both latches are armed and the support is the collision's platform; a non-Falling state implies bottom contact; with body and bottom contact the state is Digging exactly when "down" is held and the character was not Idle; the result is always `Supported` |
| Physics.ApplyGravity | Main.py:269-280 | Falling adds exactly `gravity` to vy and changes nothing else; Idle sets vy = 0 and puts the body on top of the support; Digging applies the restoring term and moves y, onto the platform top, only when the new vy is in (-0.01, 0.01); x, vx, state and latches never change |
| Physics.DigForceBalance | Main.py:272-273 | for size >= 4 (where `int(size/4) >= 1`), the digging force is zero exactly at half a size below the platform top and pushes back toward it from either side |
| Physics.BrakeX | Main.py:332-349 | zero stays zero; with a horizontal key held vx moves toward zero by `int(brake/10)`; with no key and the jump latch clear by exactly brake/10; with no key and the latch armed, vx is cut toward zero to a multiple of ten and then moved a whole brake toward zero |
| Physics.BrakeY | Main.py:351-360 | zero stays zero; with no vertical key a fall loses `int(brake/1.5)` and a rise loses `int(brake)`; with a vertical key held either direction loses `int(brake/4)` |
| Physics.Brake | Main.py:331-360 | only the two velocities change: vx becomes `BrakeX` of the horizontal keys and the jump latch, vy becomes `BrakeY` of the vertical keys; an axis at rest stays at rest |
| Physics.BrakeAxesSeparate | Main.py:331-360 | horizontal braking depends only on vx, left/right and the jump latch; vertical braking only on vy and up/down |
| Physics.BrakeHorizontalKeyIsSymmetric | Main.py:332-349 | left, right, or both held brake alike |
| Physics.BrakeXOdd | Main.py:332-349 | horizontal braking is mirror-symmetric in the sign of vx |
| Physics.BrakeYOddWithKey | Main.py:356-360 | with a vertical key held, vertical braking is mirror-symmetric |
| Physics.BrakeYOddWithoutKeyIff | Main.py:351-355 | without vertical keys, a fall and a rise of the same speed brake by mirror amounts exactly when `int(brake/1.5) == int(brake)` |
| Physics.BrakeYAsymmetricWithoutKey | Main.py:351-355 | at brake 3 the amounts differ: a fall from 10 slows to 8, a rise from 10 only to 7 |
| Physics.BrakeGentleInAir | Main.py:332-341 | no horizontal key and jump latch clear: vx > 0 drops by exactly brake/10, vx < 0 rises by it |
| Physics.BrakeArmedSwings | Main.py:336-344 | no horizontal key and jump latch armed: a small vx never comes to rest but swings between -brake and brake |
| Physics.ApplyInput | Main.py:313-329 | a jump fires exactly when up is held, the jump latch is armed and -max <= scaled vy; firing clears the latch, sets Falling and subtracts accel*20 from vy; the dig is symmetric with the dig latch, Digging and +accel*20; left/right change only vx, by accel each when within the limit |
| Physics.NoDoubleTrigger | Main.py:320-329 | once a jump (dig) has fired, a second application without re-arming cannot fire it again |
| Physics.HorizontalKeysOnlyChangeVx | Main.py:316-319 | the left/right keys affect nothing but vx |
| Physics.CheckDeath | Main.py:282-295 | a character whose y exceeds tiles_y*tile_size + size is stopped and put at the spawn point with consistent probes, keeping state and latches; any other character is unchanged |
| Physics.CheckDeathIdempotent | Main.py:290-295 | with borders smaller than a tile and at least one tile row, a respawned character is not respawned again |
| Physics.Move | Main.py:297-311 | after respawn check, gravity and braking, the body moves by exactly the scaled velocity of that braked state, and the new velocity, the state, both latches and the jump/dig events are those input acceleration makes from it; the tuning values are kept; probes stay consistent and a `Supported` character stays `Supported`; a jump (dig) event means up (down) was held with the latch armed, and leaves it cleared; without events state and latches are unchanged |
| Physics.MovePositionLagsInput | Main.py:302-310 | key sets that brake alike end the tick with the body in the same place, whatever acceleration they ask for |
| Physics.LeftRightDifferOnlyInVelocity | Main.py:302-319 | from rest, holding left instead of right gives the same position but velocities 2*accel apart |
| Physics.RespawnKeepsSpawnColumn | Main.py:294-311 | in a tick that respawns the character, it ends on the spawn column |
| Physics.IdleIsStable | Main.py:277-280 | without input an Idle character stays Idle, at vy = 0, on top of its platform, with no events |
| Platforms.SwitchVisible | Main.py:421-422 | only the visibility flag flips |
| Platforms.Add | Main.py:452-453 | the new platform goes last, the earlier ones keep their order |
| Platforms.IndexOf | Main.py:456-457 | the index found holds the platform and no earlier one is equal to it |
| Platforms.Remove | Main.py:455-457 | an unregistered platform leaves the list unchanged; otherwise its first copy is cut out, the rest keeping their order, and the multiset loses exactly one copy |
| Platforms.RemoveUndoesAdd | Main.py:452-457 | removing a freshly added platform restores the registry |
| Platforms.IndexOfAdd | Main.py:452-457 | appending a platform does not move the first copy of one already registered |
| Platforms.RemoveDropsEarliest | Main.py:452-457 | with a platform registered twice, removal drops the earlier copy |
| Platforms.Rects | Main.py:459-460 | the rectangles are those of the registered platforms, in order |
| Platforms.RectsOfAdd | Main.py:452-460 | registering appends the platform's rectangle to the rectangle list |
| Platforms.RectsIgnoreVisibility | Main.py:459-460 | toggling visibility does not change the rectangles collisions see |
| Game.Tick | Main.py:545-546 | a tick (`calcular_colision`, then `mover`) of any character keeps the probe invariant and the tuning values and leaves it `Supported` |
| Game.UnsupportedFalls | Main.py:198-204 | with nothing under the bottom probe the character is Falling after the tick and no dig fires, whatever the keys |
| Game.DigFromRest | Main.py:325-329 | a resting character holding only "down" over a platform starts Digging with vy = accel*20 and one dig event |
| Game.DigHeldThroughPlatform | Main.py:188-191 | a falling or digging character touching platforms with body and bottom probe keeps digging while "down" is held |
| Game.JumpFromRest | Main.py:320-324 | a resting character over a platform holding only "up" jumps this tick: one jump event, no dig, Falling, vy = -accel*20, the jump latch spent |
| Game.HeadContactRearms | Main.py:195-196 | a platform touching the top probe leaves the jump armed after a tick without "up" |
| Game.FreeFall | Main.py:297-311 | touching nothing and above the kill line, the character moves by exactly the scaled velocity of the braked state after one step of gravity, and its new velocity and jump event are those the keys make from that state; no dig fires |
| Game.LatestRegisteredSupports | Main.py:174-181 | the last registered platform under the bottom probe becomes the support |
| Game.TickIgnoresVisibility | Main.py:243-248 | toggling a platform's visibility does not change a tick |
| Game.InvariantsThroughTicks | Main.py:250-259 | over any sequence of ticks the probes stay consistent with the body, the tuning values are kept, and after at least one tick the character is `Supported` |

## Left out

- Display and monitors (`Pantalla`, `ScreenData.get_data`, `calculate_position`): screen size is an input to `Screen.CalculateTileSize`.
- All drawing (`dibujar`, `Fondo`, `SpriteSheet`, the sprite parts of `ResourceManager`): no bearing on motion.
- Audio (`AudioConfig`, `play_sound`, volumes, delays): a jump or dig is reported as the `jumped`/`dug` flags of `Physics.Moved`.
- The event and clock loop (`GameStateManager`, `main`): `dt`, keys and the tile layout are parameters of `Game.Tick`.
- Level authoring (`crear_plataformas`, `PlatformConfig`) and the `Plataforma` constructor with its keyword defaults: platforms are given values of `Platforms.Platform`, and the platform list is an input.
- IEEE float rounding and `pygame.Rect`'s coercion of coordinates to integers: coordinates and velocities are exact reals.
- Geometry.Overlaps: models `colliderect` for rectangles of positive extent; pygame's normalisation of negative widths is not modelled.
- Platform identity: Python compares platform objects by identity in `remover_plataforma`; the model compares platform values.
- Health and respawn damage: the code has none.
- The multi-tick scenario of a character falling onto a platform and coming to rest is not proved; `Physics.IdleIsStable` proves only that rest, once reached, is kept.
- Physics.ApplyGravity: requires a recorded support when Idle or Digging (`SupportRecorded`), because the source crashes on a missing support there; `Game.Tick` shows the requirement always holds in play. `Physics.Move` requires the same.

=== FILE: character.dfy ===
/** The player character: its body rectangle, probe rectangles, velocity and latches. */
module Character {
  import opened Optional
  import opened Geometry
  import opened GameConstants

  /** Arrow keys held during a tick. */
  datatype Keys = Keys(left: bool, right: bool, up: bool, down: bool)

  /**
   * A character. `rect` is the square body; `top`, `bottom`, `right` and
   * `left` are the probes around it. `jumpReady` and `digReady` are the
   * latches that gate jumping and digging; `support` is the platform last
   * found under the bottom probe.
   */
  datatype Character = Character(
    rect: Rect, top: Rect, bottom: Rect, right: Rect, left: Rect,
    size: real,
    maxSpeed: real, gravity: real, brake: real, accel: real,
    vx: real, vy: real,
    state: GravityState,
    jumpReady: bool, digReady: bool,
    support: Option<Rect>)

  /** The probes have the extents they were created with. */
  predicate ProbesShaped(c: Character) {
    var s := c.size;
    && c.rect.w == s && c.rect.h == s
    && c.top.w == s && c.top.h == s / 2.0
    && c.bottom.w == s && c.bottom.h == s / 2.0
    && c.right.w == s / 2.0 && c.right.h == s
    && c.left.w == s / 2.0 && c.left.h == s
  }

  /** The probes sit around the body: half a size above, right below, flush right, half a size left. */
  predicate ProbesPlaced(c: Character) {
    var x, y, s := c.rect.x, c.rect.y, c.size;
    && c.top.x == x && c.top.y == y - s / 2.0
    && c.bottom.x == x && c.bottom.y == y + s
    && c.right.x == x + s && c.right.y == y
    && c.left.x == x - s / 2.0 && c.left.y == y
  }

  /** The invariant tying the four probes to the body rectangle. */
  predicate ProbesConsistent(c: Character) {
    ProbesShaped(c) && ProbesPlaced(c)
  }

  /** Idle and Digging read the support platform, so those states need one recorded. */
  predicate SupportRecorded(c: Character) {
    c.state != Falling ==> c.support.Some?
  }

  /**
   * A character without a recorded support platform is falling and cannot dig:
   * Idle and Digging both read the support platform.
   */
  predicate Supported(c: Character) {
    c.support.None? ==> c.state == Falling && !c.digReady
  }

  /** `Personaje(x, y, size)`: a falling character at rest, tuning derived from its size. */
  function NewCharacter(x: real, y: real, size: real): (c: Character)
    ensures ProbesConsistent(c) && Supported(c)
    ensures c.rect.x == x && c.rect.y == y && c.size == size
    ensures c.vx == 0.0 && c.vy == 0.0
    ensures c.state == Falling && !c.jumpReady && !c.digReady && c.support.None?
    ensures c.maxSpeed * MaxSpeedFactor == size && c.gravity * GravityFactor == size
    ensures c.brake * BrakeFactor == size && c.accel * AccelerationFactor == size
  {
    Character(
      Rect(x, y, size, size),
      Rect(x, y - size / 2.0, size, size / 2.0),
      Rect(x, y + size, size, size / 2.0),
      Rect(x + size, y, size / 2.0, size),
      Rect(x - size / 2.0, y, size / 2.0, size),
      size,
      size / MaxSpeedFactor, size / GravityFactor, size / BrakeFactor, size / AccelerationFactor,
      0.0, 0.0,
      Falling, false, false, None)
  }

  /** The three rectangles `check_collisions` looks at. */
  datatype Sensors = Sensors(main: Rect, top: Rect, bottom: Rect)

  /**
   * `get_collision_rects`: the body with the probes above and below it; the
   * side probes are never tested. With consistent probes the top probe ends
   * where the body starts and the bottom probe starts where it ends.
   */
  function SensorsOf(c: Character): (s: Sensors)
    ensures s.main == c.rect && s.top == c.top && s.bottom == c.bottom
    ensures ProbesConsistent(c) ==>
      && s.top.x == s.main.x == s.bottom.x
      && s.top.y + s.top.h == s.main.y && s.bottom.y == s.main.y + s.main.h
  {
    Sensors(c.rect, c.top, c.bottom)
  }

  /**
   * `actualizar_posicion_rects`: move every probe to its place around the body,
   * keeping the probes' extents and everything else.
   */
  function SyncProbes(c: Character): (r: Character)
    ensures ProbesPlaced(r)
    ensures ProbesShaped(r) <==> ProbesShaped(c)
    ensures r.top.w == c.top.w && r.top.h == c.top.h && r.bottom.w == c.bottom.w && r.bottom.h == c.bottom.h
    ensures r.right.w == c.right.w && r.right.h == c.right.h && r.left.w == c.left.w && r.left.h == c.left.h
    ensures r.rect == c.rect && r.size == c.size
    ensures r == c.(top := r.top, bottom := r.bottom, right := r.right, left := r.left)
  {
    var x, y, s := c.rect.x, c.rect.y, c.size;
    c.(top := MoveTo(c.top, x, y - s / 2.0),
       bottom := MoveTo(c.bottom, x, y + s),
       right := MoveTo(c.right, x + s, y),
       left := MoveTo(c.left, x - s / 2.0, y))
  }

  /** Resynchronising consistent probes changes nothing. */
  lemma SyncProbesFixesConsistent(c: Character)
    requires ProbesConsistent(c)
    ensures SyncProbes(c) == c
  {
  }

  /** Moving the body to (x, y) and resynchronising the probes. */
  function Place(c: Character, x: real, y: real): (r: Character)
    ensures r.rect.x == x && r.rect.y == y
    ensures ProbesPlaced(r) && (ProbesConsistent(r) <==> ProbesShaped(c))
    ensures r == c.(rect := r.rect, top := r.top, bottom := r.bottom, right := r.right, left := r.left)
    ensures r.rect.w == c.rect.w && r.rect.h == c.rect.h
  {
    SyncProbes(c.(rect := MoveTo(c.rect, x, y)))
  }

  /**
   * `reiniciar_posicion`: stop the character and put it at (x, y); the state,
   * the latches and the support platform are kept.
   */
  function ResetPosition(c: Character, x: real, y: real): (r: Character)
    ensures r.vx == 0.0 && r.vy == 0.0
    ensures r.rect.x == x && r.rect.y == y
    ensures ProbesShaped(c) ==> ProbesConsistent(r)
    ensures r.state == c.state && r.jumpReady == c.jumpReady && r.digReady == c.digReady
    ensures r.support == c.support && r.size == c.size
    ensures r.maxSpeed == c.maxSpeed && r.gravity == c.gravity && r.brake == c.brake && r.accel == c.accel
  {
    Place(c.(vx := 0.0, vy := 0.0), x, y)
  }

  /** A reset lands in the same place whatever the velocity was before. */
  lemma ResetForgetsVelocity(c: Character, vx: real, vy: real, x: real, y: real)
    ensures ResetPosition(c.(vx := vx, vy := vy), x, y) == ResetPosition(c, x, y)
  {
  }

  /** Resetting twice to the same point is resetting once. */
  lemma ResetIdempotent(c: Character, x: real, y: real)
    ensures ResetPosition(ResetPosition(c, x, y), x, y) == ResetPosition(c, x, y)
  {
  }
}

=== FILE: collision.dfy ===
/** Collision detection against the platform list and the gravity-state transition it drives. */
module Collision {
  import opened Optional
  import opened Geometry
  import opened GameConstants
  import opened Character

  /** What one tick's collision pass found; `platform` is the last one under the bottom probe. */
  datatype CollisionState = CollisionState(body: bool, top: bool, bottom: bool, platform: Option<Rect>)

  /** Some platform of `ps` overlaps `probe`. */
  predicate AnyOverlap(probe: Rect, ps: seq<Rect>) {
    exists i :: 0 <= i < |ps| && Overlaps(probe, ps[i])
  }

  /** `p` is the last platform of `ps`, in list order, that overlaps `probe`. */
  predicate LastOverlap(probe: Rect, ps: seq<Rect>, p: Rect) {
    exists i :: 0 <= i < |ps| && ps[i] == p && Overlaps(probe, p) && NoneAfter(probe, ps, i)
  }

  predicate NoneAfter(probe: Rect, ps: seq<Rect>, i: int) {
    forall j :: 0 <= j < |ps| && i < j ==> !Overlaps(probe, ps[j])
  }

  /** One iteration of the `check_collisions` loop. */
  function Observe(st: CollisionState, s: Sensors, p: Rect): CollisionState {
    var st1 := if Overlaps(s.main, p) then st.(body := true) else st;
    var st2 := if Overlaps(s.top, p) then st1.(top := true) else st1;
    if Overlaps(s.bottom, p) then st2.(bottom := true, platform := Some(p)) else st2
  }

  /**
   * `check_collisions`: the loop over the platforms in list order. Each flag is
   * set exactly when some platform overlaps its probe, and the platform under
   * the bottom probe is the last such one in the list.
   */
  function CheckCollisions(s: Sensors, ps: seq<Rect>): (r: CollisionState)
    decreases |ps|
    ensures r.body <==> AnyOverlap(s.main, ps)
    ensures r.top <==> AnyOverlap(s.top, ps)
    ensures r.bottom <==> AnyOverlap(s.bottom, ps)
    ensures r.platform.Some? <==> r.bottom
    ensures r.platform.Some? ==> LastOverlap(s.bottom, ps, r.platform.value)
  {
    if |ps| == 0 then CollisionState(false, false, false, None)
    else
      var n := |ps| - 1;
      var init := ps[..n];
      var st := CheckCollisions(s, init);
      var r := Observe(st, s, ps[n]);
      assert forall i :: 0 <= i < n ==> init[i] == ps[i];
      assert AnyOverlap(s.main, ps) <==> AnyOverlap(s.main, init) || Overlaps(s.main, ps[n]);
      assert AnyOverlap(s.top, ps) <==> AnyOverlap(s.top, init) || Overlaps(s.top, ps[n]);
      assert AnyOverlap(s.bottom, ps) <==> AnyOverlap(s.bottom, init) || Overlaps(s.bottom, ps[n]);
      assert Overlaps(s.bottom, ps[n]) ==> NoneAfter(s.bottom, ps, n);
      assert !Overlaps(s.bottom, ps[n]) && st.platform.Some? ==> LastOverlap(s.bottom, ps, st.platform.value) by {
        if !Overlaps(s.bottom, ps[n]) && st.platform.Some? {
          var i :| 0 <= i < n && init[i] == st.platform.value && Overlaps(s.bottom, init[i])
                   && NoneAfter(s.bottom, init, i);
          assert NoneAfter(s.bottom, ps, i);
        }
      }
      r
  }

  /** The collision pass as the loop it is in the source, one platform at a time in list order. */
  method CheckCollisionsLoop(s: Sensors, ps: seq<Rect>) returns (st: CollisionState)
    ensures st == CheckCollisions(s, ps)
    ensures st.platform.Some? ==> LastOverlap(s.bottom, ps, st.platform.value)
  {
    st := CollisionState(false, false, false, None);
    var i := 0;
    while i < |ps|
      invariant 0 <= i <= |ps|
      invariant st == CheckCollisions(s, ps[..i])
    {
      assert ps[..i + 1][..i] == ps[..i];
      st := Observe(st, s, ps[i]);
      i := i + 1;
    }
    assert ps[..i] == ps;
  }

  /** No platforms, no contact. */
  lemma NoPlatformsNoContact(s: Sensors)
    ensures CheckCollisions(s, []) == CollisionState(false, false, false, None)
  {
  }

  /** Of several platforms under the bottom probe, the later-registered one wins. */
  lemma LaterPlatformWins(s: Sensors, ps: seq<Rect>, p: Rect)
    requires Overlaps(s.bottom, p)
    ensures CheckCollisions(s, ps + [p]).platform == Some(p)
  {
  }

  /**
   * `update_character_state`: body contact settles the character (or keeps it
   * digging while "down" is held), top or bottom contact re-arms the jump,
   * bottom contact re-arms the dig and records the support, and without
   * bottom contact the character falls and cannot dig.
   */
  function UpdateState(c: Character, cs: CollisionState, down: bool): (r: Character)
    ensures r == c.(state := r.state, jumpReady := r.jumpReady, digReady := r.digReady, support := r.support)
    ensures !cs.bottom ==> r.state == Falling && !r.digReady && r.support == c.support
    ensures cs.bottom ==> r.jumpReady && r.digReady && r.support == cs.platform
    ensures r.jumpReady <==> c.jumpReady || cs.top || cs.bottom
    ensures cs.bottom && cs.body ==> (r.state == Digging <==> down && c.state in [Digging, Falling])
    ensures cs.bottom && cs.body ==> r.state != Falling
    ensures cs.bottom && !cs.body ==> r.state == c.state
    ensures r.state != Falling ==> cs.bottom
    ensures (cs.bottom ==> cs.platform.Some?) ==> Supported(r)
  {
    var c1 :=
      if cs.body then
        c.(state := if c.state in [Digging, Falling] && down then Digging else Idle)
      else c;
    var c2 := if cs.top then c1.(jumpReady := true) else c1;
    if cs.bottom then c2.(jumpReady := true, digReady := true, support := cs.platform)
    else c2.(state := Falling, digReady := false)
  }
}

=== FILE: game.dfy ===
/** One playing tick of the game loop: collision pass, state transition, then the move. */
module Game {
  import opened Optional
  import opened Geometry
  import opened GameConstants
  import opened Numeric
  import opened Character
  import opened Collision
  import opened Physics
  import opened Platforms
  import Screen

  /**
   * One tick of `handle_playing`: `calcular_colision` against the registered
   * platforms, then `mover`. Any character can be ticked: the collision pass
   * always leaves it `Supported`.
   */
  function Tick(c: Character, reg: seq<Platform>, keys: Keys, dt: real, t: Screen.Tiles): (m: Moved)
    ensures ProbesConsistent(c) ==> ProbesConsistent(m.c)
    ensures Supported(m.c)
    ensures m.c.size == c.size
    ensures m.c.maxSpeed == c.maxSpeed && m.c.gravity == c.gravity && m.c.brake == c.brake && m.c.accel == c.accel
  {
    var cs := CheckCollisions(SensorsOf(c), Rects(reg));
    Move(UpdateState(c, cs, keys.down), keys, dt, t)
  }

  /** Nothing under the bottom probe: after the tick the character is falling, whatever the keys. */
  lemma UnsupportedFalls(c: Character, reg: seq<Platform>, keys: Keys, dt: real, t: Screen.Tiles)
    requires forall i :: 0 <= i < |reg| ==> !Overlaps(c.bottom, reg[i].rect)
    ensures Tick(c, reg, keys, dt, t).c.state == Falling
    ensures !Tick(c, reg, keys, dt, t).dug
  {
  }

  /**
   * Digging from rest: a resting character holding only "down", with a platform
   * under its bottom probe and its body clear, starts digging this tick with a
   * downward impulse and one dig event.
   */
  lemma DigFromRest(c: Character, reg: seq<Platform>, dt: real, t: Screen.Tiles)
    requires c.state == Idle && c.maxSpeed >= 0.0
    requires exists i :: 0 <= i < |reg| && Overlaps(c.bottom, reg[i].rect)
    requires forall i :: 0 <= i < |reg| ==> !Overlaps(c.rect, reg[i].rect)
    requires c.rect.y <= Screen.KillLine(t, c.size)
    ensures var m := Tick(c, reg, Keys(false, false, false, true), dt, t);
            m.dug && !m.jumped && m.c.state == Digging && m.c.vy == c.accel * JumpForce
  {
  }

  /**
   * Digging through: a falling or digging character whose body and bottom
   * probe both touch platforms keeps digging while "down" is held.
   */
  lemma DigHeldThroughPlatform(c: Character, reg: seq<Platform>, dt: real, t: Screen.Tiles)
    requires c.state in [Falling, Digging]
    requires exists i :: 0 <= i < |reg| && Overlaps(c.rect, reg[i].rect)
    requires exists i :: 0 <= i < |reg| && Overlaps(c.bottom, reg[i].rect)
    ensures Tick(c, reg, Keys(false, false, false, true), dt, t).c.state == Digging
  {
    var cs := CheckCollisions(SensorsOf(c), Rects(reg));
    assert cs.body && cs.bottom;
  }

  /**
   * Jumping from rest: a resting character over a platform, holding only "up",
   * jumps this tick with the full upward impulse, one jump event, and the
   * jump latch spent.
   */
  lemma JumpFromRest(c: Character, reg: seq<Platform>, dt: real, t: Screen.Tiles)
    requires c.state == Idle && c.maxSpeed >= 0.0
    requires exists i :: 0 <= i < |reg| && Overlaps(c.bottom, reg[i].rect)
    requires c.rect.y <= Screen.KillLine(t, c.size)
    ensures var m := Tick(c, reg, Keys(false, false, true, false), dt, t);
            && m.jumped && !m.dug && m.c.state == Falling
            && m.c.vy == -c.accel * JumpForce && !m.c.jumpReady
  {
  }

  /** A platform touching the top probe re-arms the jump, which stays armed while "up" is not held. */
  lemma HeadContactRearms(c: Character, reg: seq<Platform>, dt: real, t: Screen.Tiles)
    requires exists i :: 0 <= i < |reg| && Overlaps(c.top, reg[i].rect)
    ensures Tick(c, reg, Keys(false, false, false, false), dt, t).c.jumpReady
  {
  }

  /**
   * Free fall: touching no platform with the body or either vertical probe,
   * and above the kill line, the character falls, gains `gravity`, is braked,
   * and moves by the scaled braked velocity; input then acts on that velocity.
   */
  lemma FreeFall(c: Character, reg: seq<Platform>, keys: Keys, dt: real, t: Screen.Tiles)
    requires forall i :: 0 <= i < |reg| ==>
      !Overlaps(c.rect, reg[i].rect) && !Overlaps(c.top, reg[i].rect) && !Overlaps(c.bottom, reg[i].rect)
    requires c.rect.y <= Screen.KillLine(t, c.size)
    ensures var m := Tick(c, reg, keys, dt, t);
            var c3 := Brake(c.(state := Falling, digReady := false, vy := c.vy + c.gravity), keys);
            var a := ApplyInput(c3, keys, Scale(c3.vx, dt), Scale(c3.vy, dt));
            && m.c.rect.x == c.rect.x + Scale(c3.vx, dt)
            && m.c.rect.y == c.rect.y + Scale(c3.vy, dt)
            && m.c.vx == a.c.vx && m.c.vy == a.c.vy
            && m.jumped == a.jumped && !m.dug
  {
  }

  /** The platform registered last wins the support when it lies under the bottom probe. */
  lemma LatestRegisteredSupports(c: Character, reg: seq<Platform>, p: Platform)
    requires Overlaps(c.bottom, p.rect)
    ensures CheckCollisions(SensorsOf(c), Rects(Add(reg, p))).platform == Some(p.rect)
  {
  }

  /** Toggling a platform's visibility does not change what a tick does. */
  lemma TickIgnoresVisibility(c: Character, reg: seq<Platform>, i: int, keys: Keys, dt: real, t: Screen.Tiles)
    requires 0 <= i < |reg|
    ensures Tick(c, reg[i := SwitchVisible(reg[i])], keys, dt, t) == Tick(c, reg, keys, dt, t)
  {
    RectsIgnoreVisibility(reg, i);
  }

  /**
   * A character with consistent probes keeps them consistent through every
   * tick, and after at least one tick it is `Supported`.
   */
  lemma {:induction false} InvariantsThroughTicks(c: Character, ticks: seq<(Keys, real)>, reg: seq<Platform>, t: Screen.Tiles)
    requires ProbesConsistent(c)
    ensures ProbesConsistent(Run(c, ticks, reg, t)) && Run(c, ticks, reg, t).size == c.size
    ensures |ticks| > 0 ==> Supported(Run(c, ticks, reg, t))
    ensures var r := Run(c, ticks, reg, t);
            r.maxSpeed == c.maxSpeed && r.gravity == c.gravity && r.brake == c.brake && r.accel == c.accel
    decreases |ticks|
  {
    if |ticks| > 0 {
      var m := Tick(c, reg, ticks[0].0, ticks[0].1, t);
      InvariantsThroughTicks(m.c, ticks[1..], reg, t);
    }
  }

  /** The character after a sequence of ticks, each with its keys and frame time. */
  function Run(c: Character, ticks: seq<(Keys, real)>, reg: seq<Platform>, t: Screen.Tiles): Character
    decreases |ticks|
  {
    if |ticks| == 0 then c
    else Run(Tick(c, reg, ticks[0].0, ticks[0].1, t).c, ticks[1..], reg, t)
  }
}

=== FILE: game_constants.dfy ===
/** The tuning constants and the gravity states of the game. */
module GameConstants {

  /** The vertical-motion mode of a character. */
  datatype GravityState =
    | Falling   // "Cayendo": gravity accumulates
    | Digging   // "Cavando": sinking through the platform underfoot
    | Idle      // "Quieto": pinned on top of the supporting platform

  /** Tuning divisors: each tuning value is the character size over its factor. */
  const GravityFactor: real := 5.0
  const AccelerationFactor: real := 5.0
  const BrakeFactor: real := 13.0
  const MaxSpeedFactor: real := 15.0

  /** Multiplier of the acceleration that makes a jump or dig impulse. */
  const JumpForce: real := 20.0

  /** The screen is this many tiles wide (at least). */
  const TileDivisor: nat := 30
}

=== FILE: geometry.dfy ===
/** Axis-aligned rectangles and the overlap test used for collisions. */
module Geometry {

  /** A rectangle by its top-left corner, width and height (y grows downward). */
  datatype Rect = Rect(x: real, y: real, w: real, h: real)

  /** The same rectangle with its top-left corner moved to (x, y). */
  function MoveTo(r: Rect, x: real, y: real): (m: Rect)
    ensures m.x == x && m.y == y && m.w == r.w && m.h == r.h
  {
    r.(x := x, y := y)
  }

  /**
   * `colliderect`: two non-empty rectangles overlap when their interiors
   * meet on both axes; touching edges do not count.
   */
  predicate Overlaps(a: Rect, b: Rect) {
    && a.w > 0.0 && a.h > 0.0 && b.w > 0.0 && b.h > 0.0
    && a.x < b.x + b.w && b.x < a.x + a.w
    && a.y < b.y + b.h && b.y < a.y + a.h
  }
}

=== FILE: numeric.dfy ===
/** Python's float-to-int conversion and the per-tick velocity quantisation. */
module Numeric {

  /** `int(x)` on a Python float: truncation toward zero. */
  function Trunc(x: real): (r: int)
    ensures 0.0 <= x ==> 0 <= r && r as real <= x < r as real + 1.0
    ensures x < 0.0 ==> r <= 0 && r as real - 1.0 < x <= r as real
  {
    if x >= 0.0 then x.Floor else -((-x).Floor)
  }

  /** Truncation toward zero is an odd function. */
  lemma TruncOdd(x: real)
    ensures Trunc(-x) == -Trunc(x)
  {
    if x > 0.0 {
      assert Trunc(-x) == -(x.Floor);
    } else if x < 0.0 {
      assert Trunc(x) == -((-x).Floor);
    }
  }

  /**
   * The velocity actually applied in one tick: `int(v * dt * 10) / 10`,
   * i.e. `v * dt` cut toward zero to a multiple of one tenth.
   */
  function Scale(v: real, dt: real): (r: real)
    ensures 0.0 <= v * dt ==> 0.0 <= r <= v * dt < r + 0.1
    ensures v * dt < 0.0 ==> r - 0.1 < v * dt <= r <= 0.0
    ensures (r * 10.0).Floor as real == r * 10.0
  {
    Trunc(v * dt * 10.0) as real / 10.0
  }

  /** A standing axis stays standing: zero velocity scales to zero. */
  lemma ScaleZero(dt: real)
    ensures Scale(0.0, dt) == 0.0
  {
    assert 0.0 * dt == 0.0;
  }
}

=== FILE: optional.dfy ===
/** An optional value, standing in for Python's `None`. */
module Optional {

  datatype Option<+T> = None | Some(value: T)
}

=== FILE: physics.dfy ===
/** The per-tick integrator of `Personaje`: gravity, braking, input, respawn and the move itself. */
module Physics {
  import opened GameConstants
  import opened Numeric
  import opened Character
  import Screen

  /** A character after a tick, with the sound events the tick triggered. */
  datatype Moved = Moved(c: Character, jumped: bool, dug: bool)

  /** The two characters agree on everything but the vertical position and velocity. */
  predicate SameButVertical(c: Character, r: Character) {
    r == c.(rect := r.rect, top := r.top, bottom := r.bottom, right := r.right, left := r.left, vy := r.vy)
    && r.rect.x == c.rect.x
  }

  /** The restoring force coefficient of digging, `int(size / 4)`. */
  function DigStiffness(size: real): real {
    Trunc(size / 4.0) as real
  }

  /**
   * `accion_gravedad`. Falling accelerates downward by `gravity`. Digging
   * pulls the character back toward half a size below the platform top and,
   * once the velocity has settled near zero, snaps it on top of the platform.
   * Idle stops the character on top of the platform.
   */
  function ApplyGravity(c: Character): (r: Character)
    requires SupportRecorded(c)
    ensures SameButVertical(c, r)
    ensures ProbesConsistent(c) ==> ProbesConsistent(r)
    ensures c.state == Falling ==> r == c.(vy := c.vy + c.gravity)
    ensures c.state == Idle ==> r.vy == 0.0 && r.rect.y + c.size == c.support.value.y
    ensures c.state == Digging ==>
      r.vy == c.vy - (c.rect.y - (c.support.value.y - c.size / 2.0)) * DigStiffness(c.size)
    ensures c.state == Digging && -0.01 < r.vy < 0.01 ==> r.rect.y + c.size == c.support.value.y
    ensures c.state == Digging && !(-0.01 < r.vy < 0.01) ==> r == c.(vy := r.vy)
  {
    match c.state
    case Falling => c.(vy := c.vy + c.gravity)
    case Digging =>
      var p := c.support.value;
      var vy := c.vy - (c.rect.y - (p.y - c.size / 2.0)) * DigStiffness(c.size);
      if -0.01 < vy < 0.01 then Place(c.(vy := vy), c.rect.x, p.y - c.size)
      else c.(vy := vy)
    case Idle =>
      Place(c.(vy := 0.0), c.rect.x, c.support.value.y - c.size)
  }

  /** The digging force vanishes exactly at half a size below the platform top. */
  lemma DigForceBalance(c: Character)
    requires c.state == Digging && c.support.Some? && c.size >= 4.0
    ensures ApplyGravity(c).vy == c.vy <==> c.rect.y == c.support.value.y - c.size / 2.0
    ensures c.rect.y > c.support.value.y - c.size / 2.0 ==> ApplyGravity(c).vy < c.vy
    ensures c.rect.y < c.support.value.y - c.size / 2.0 ==> ApplyGravity(c).vy > c.vy
  {
    var k := DigStiffness(c.size);
    var d := c.rect.y - (c.support.value.y - c.size / 2.0);
    assert k >= 1.0;
    assert ApplyGravity(c).vy == c.vy - d * k;
    if d > 0.0 {
      assert d * k >= d * 1.0;
    } else if d < 0.0 {
      assert (-d) * k >= (-d) * 1.0;
    }
  }

  /**
   * The horizontal half of `frenar`. With no horizontal key the velocity
   * decays: by a tenth of `brake` while the jump latch is clear, or, while it
   * is armed, by cutting it toward zero to a multiple of ten and then taking
   * off a whole `brake`. With a horizontal key held it loses `int(brake / 10)`.
   */
  function BrakeX(vx: real, left: bool, right: bool, jumpReady: bool, brake: real): (r: real)
    ensures vx == 0.0 ==> r == 0.0
    ensures (left || right) && vx > 0.0 ==> r == vx - Trunc(brake / 10.0) as real
    ensures (left || right) && vx < 0.0 ==> r == vx + Trunc(brake / 10.0) as real
    ensures !left && !right && !jumpReady && vx > 0.0 ==> r == vx - brake / 10.0
    ensures !left && !right && !jumpReady && vx < 0.0 ==> r == vx + brake / 10.0
    ensures !left && !right && jumpReady && vx > 0.0 ==>
      r + brake == (10 * Trunc(vx / 10.0)) as real && r + brake <= vx < r + brake + 10.0
    ensures !left && !right && jumpReady && vx < 0.0 ==>
      r - brake == (10 * Trunc(vx / 10.0)) as real && r - brake - 10.0 < vx <= r - brake
  {
    if !left && !right && vx != 0.0 then
      if vx > 0.0 then
        if !jumpReady then vx - brake / 10.0
        else (Trunc(vx / 10.0) * 10) as real - brake
      else
        if !jumpReady then vx + brake / 10.0
        else (Trunc(vx / 10.0) * 10) as real + brake
    else
      if vx > 0.0 then vx - Trunc(brake / 10.0) as real
      else if vx < 0.0 then vx + Trunc(brake / 10.0) as real
      else vx
  }

  /**
   * The vertical half of `frenar`. With neither vertical key a downward
   * velocity loses `int(brake / 1.5)` and an upward one `int(brake)`; with a
   * vertical key held either direction loses `int(brake / 4)`.
   */
  function BrakeY(vy: real, up: bool, down: bool, brake: real): (r: real)
    ensures vy == 0.0 ==> r == 0.0
    ensures !up && !down && vy > 0.0 ==> r == vy - Trunc(brake / 1.5) as real
    ensures !up && !down && vy < 0.0 ==> r == vy + Trunc(brake) as real
    ensures (up || down) && vy > 0.0 ==> r == vy - Trunc(brake / 4.0) as real
    ensures (up || down) && vy < 0.0 ==> r == vy + Trunc(brake / 4.0) as real
  {
    if !up && !down && vy != 0.0 then
      if vy > 0.0 then vy - Trunc(brake / 1.5) as real
      else vy + Trunc(brake) as real
    else
      if vy > 0.0 then vy - Trunc(brake / 4.0) as real
      else if vy < 0.0 then vy + Trunc(brake / 4.0) as real
      else vy
  }

  /** `frenar`: both axes braked, each from its own keys; nothing else changes. */
  function Brake(c: Character, keys: Keys): (r: Character)
    ensures r == c.(vx := r.vx, vy := r.vy)
    ensures r.vx == BrakeX(c.vx, keys.left, keys.right, c.jumpReady, c.brake)
    ensures r.vy == BrakeY(c.vy, keys.up, keys.down, c.brake)
    ensures c.vx == 0.0 ==> r.vx == 0.0
    ensures c.vy == 0.0 ==> r.vy == 0.0
  {
    c.(vx := BrakeX(c.vx, keys.left, keys.right, c.jumpReady, c.brake),
       vy := BrakeY(c.vy, keys.up, keys.down, c.brake))
  }

  /**
   * The axes brake independently: the horizontal result depends only on the
   * horizontal velocity, the horizontal keys and the jump latch; the vertical
   * result only on the vertical velocity and the vertical keys.
   */
  lemma BrakeAxesSeparate(c1: Character, c2: Character, k1: Keys, k2: Keys)
    requires c1.brake == c2.brake
    ensures c1.vx == c2.vx && c1.jumpReady == c2.jumpReady && k1.left == k2.left && k1.right == k2.right
            ==> Brake(c1, k1).vx == Brake(c2, k2).vx
    ensures c1.vy == c2.vy && k1.up == k2.up && k1.down == k2.down
            ==> Brake(c1, k1).vy == Brake(c2, k2).vy
  {
  }

  /** Pressing left or right brakes the same way: only "some horizontal key" matters. */
  lemma BrakeHorizontalKeyIsSymmetric(vx: real, jumpReady: bool, brake: real)
    ensures BrakeX(vx, true, false, jumpReady, brake) == BrakeX(vx, false, true, jumpReady, brake)
    ensures BrakeX(vx, true, false, jumpReady, brake) == BrakeX(vx, true, true, jumpReady, brake)
  {
  }

  /** Horizontal braking is mirror-symmetric: braking -vx gives minus the braking of vx. */
  lemma BrakeXOdd(vx: real, left: bool, right: bool, jumpReady: bool, brake: real)
    ensures BrakeX(-vx, left, right, jumpReady, brake) == -BrakeX(vx, left, right, jumpReady, brake)
  {
    TruncOdd(vx / 10.0);
    assert -vx / 10.0 == -(vx / 10.0);
  }

  /** Vertical braking is mirror-symmetric only with a vertical key held. */
  lemma BrakeYOddWithKey(vy: real, up: bool, down: bool, brake: real)
    requires up || down
    ensures BrakeY(-vy, up, down, brake) == -BrakeY(vy, up, down, brake)
  {
  }

  /**
   * Without vertical keys a fall slows by int(brake/1.5) and a rise by
   * int(brake), so vertical braking is mirror-symmetric exactly when the two
   * truncations agree.
   */
  lemma BrakeYOddWithoutKeyIff(vy: real, brake: real)
    requires vy > 0.0
    ensures BrakeY(-vy, false, false, brake) == -BrakeY(vy, false, false, brake)
            <==> Trunc(brake / 1.5) == Trunc(brake)
  {
  }

  /** At brake 3 the two truncations differ: a fall from 10 slows to 8, a rise from 10 only to 7. */
  lemma BrakeYAsymmetricWithoutKey()
    ensures BrakeY(10.0, false, false, 3.0) == 8.0
    ensures BrakeY(-10.0, false, false, 3.0) == -7.0
  {
    assert Trunc(3.0 / 1.5) == 2;
    assert Trunc(3.0) == 3;
  }

  /**
   * With no horizontal key and the jump latch clear, a rightward velocity
   * drops by exactly a tenth of `brake`, a leftward one rises by it.
   */
  lemma BrakeGentleInAir(c: Character, keys: Keys)
    requires !keys.left && !keys.right && !c.jumpReady
    ensures c.vx > 0.0 ==> Brake(c, keys).vx == c.vx - c.brake / 10.0
    ensures c.vx < 0.0 ==> Brake(c, keys).vx == c.vx + c.brake / 10.0
  {
  }

  /**
   * With no horizontal key and the jump latch armed, a small velocity
   * (below ten, with `brake` below ten) does not come to rest: it flips to
   * minus `brake` and then swings between `brake` and minus `brake`.
   */
  lemma BrakeArmedSwings(vx: real, brake: real)
    requires 0.0 < vx < 10.0 && 0.0 < brake < 10.0
    ensures BrakeX(vx, false, false, true, brake) == -brake
    ensures BrakeX(-brake, false, false, true, brake) == brake
    ensures BrakeX(brake, false, false, true, brake) == -brake
  {
    assert Trunc(vx / 10.0) == 0;
    assert Trunc(-brake / 10.0) == 0;
    assert Trunc(brake / 10.0) == 0;
  }

  /**
   * `actualizar_velocidades`, minus the sounds. Left and right accelerate
   * horizontally while the last scaled speed is within the limit. A jump
   * fires when up is held, the last scaled vertical speed is at most the
   * limit upward and the jump latch is armed: it clears the latch, makes the
   * character fall and kicks it upward. A dig is the same downward with the
   * dig latch and the Digging state.
   */
  function ApplyInput(c: Character, keys: Keys, sx: real, sy: real): (m: Moved)
    ensures m.jumped <==> keys.up && -c.maxSpeed <= sy && c.jumpReady
    ensures m.dug <==> keys.down && c.maxSpeed >= sy && c.digReady
    ensures m.c.vx == c.vx - (if keys.left && -c.maxSpeed <= sx then c.accel else 0.0)
                           + (if keys.right && c.maxSpeed >= sx then c.accel else 0.0)
    ensures m.c.vy == c.vy - (if m.jumped then c.accel * JumpForce else 0.0)
                           + (if m.dug then c.accel * JumpForce else 0.0)
    ensures m.c.jumpReady == (c.jumpReady && !m.jumped)
    ensures m.c.digReady == (c.digReady && !m.dug)
    ensures m.c.state == (if m.dug then Digging else if m.jumped then Falling else c.state)
    ensures m.c == c.(vx := m.c.vx, vy := m.c.vy, state := m.c.state,
                      jumpReady := m.c.jumpReady, digReady := m.c.digReady)
  {
    var c1 := if keys.left && -c.maxSpeed <= sx then c.(vx := c.vx - c.accel) else c;
    var c2 := if keys.right && c.maxSpeed >= sx then c1.(vx := c1.vx + c.accel) else c1;
    var jump := keys.up && -c.maxSpeed <= sy && c2.jumpReady;
    var c3 := if jump then c2.(jumpReady := false, state := Falling, vy := c2.vy - c.accel * JumpForce) else c2;
    var dig := keys.down && c.maxSpeed >= sy && c3.digReady;
    var c4 := if dig then c3.(digReady := false, state := Digging, vy := c3.vy + c.accel * JumpForce) else c3;
    Moved(c4, jump, dig)
  }

  /** A latch fires at most once: without a re-arm the same input cannot fire it again. */
  lemma NoDoubleTrigger(c: Character, keys: Keys, sx: real, sy: real, sx': real, sy': real)
    ensures ApplyInput(c, keys, sx, sy).jumped ==> !ApplyInput(ApplyInput(c, keys, sx, sy).c, keys, sx', sy').jumped
    ensures ApplyInput(c, keys, sx, sy).dug ==> !ApplyInput(ApplyInput(c, keys, sx, sy).c, keys, sx', sy').dug
  {
  }

  /** Left and right never touch the vertical motion or the latches. */
  lemma HorizontalKeysOnlyChangeVx(c: Character, keys: Keys, sx: real, sy: real)
    ensures var m := ApplyInput(c, keys, sx, sy);
            var n := ApplyInput(c, keys.(left := false, right := false), sx, sy);
            m.c == n.c.(vx := m.c.vx) && m.jumped == n.jumped && m.dug == n.dug
  {
  }

  /**
   * `muerto`: a character whose top edge is below the bottom of the tiled area
   * by more than its size is stopped and put at the spawn point; any other
   * character is left alone.
   */
  function CheckDeath(c: Character, t: Screen.Tiles): (r: Character)
    ensures c.rect.y > Screen.KillLine(t, c.size) ==>
      && r.vx == 0.0 && r.vy == 0.0
      && r.rect.x == Screen.SpawnX(t) as real && r.rect.y == Screen.SpawnY(t) as real
      && (ProbesShaped(c) ==> ProbesConsistent(r))
      && r == c.(rect := r.rect, top := r.top, bottom := r.bottom, right := r.right, left := r.left,
                 vx := 0.0, vy := 0.0)
    ensures c.rect.y <= Screen.KillLine(t, c.size) ==> r == c
  {
    if c.rect.y > Screen.KillLine(t, c.size) then
      ResetPosition(c, Screen.SpawnX(t) as real, Screen.SpawnY(t) as real)
    else c
  }

  /** On a grid with borders smaller than a tile, a respawned character is not killed again. */
  lemma CheckDeathIdempotent(c: Character, t: Screen.Tiles)
    requires Screen.Bordered(t) && t.tilesY >= 1 && c.size >= 0.0
    ensures CheckDeath(CheckDeath(c, t), t) == CheckDeath(c, t)
  {
    Screen.SpawnAboveKillLine(t, c.size);
  }

  /**
   * `mover`: respawn check, gravity, braking, then the scaled velocity of this
   * tick; input acceleration changes the velocity, but the body moves by the
   * scaled velocity taken before the input was applied.
   */
  function Move(c: Character, keys: Keys, dt: real, t: Screen.Tiles): (m: Moved)
    requires SupportRecorded(c)
    ensures ProbesConsistent(c) ==> ProbesConsistent(m.c)
    ensures Supported(c) ==> Supported(m.c)
    ensures m.c.size == c.size && m.c.support == c.support
    ensures m.jumped ==> keys.up && c.jumpReady && !m.c.jumpReady
    ensures m.dug ==> keys.down && c.digReady && !m.c.digReady && m.c.state == Digging
    ensures !m.jumped && !m.dug ==>
      m.c.state == c.state && m.c.jumpReady == c.jumpReady && m.c.digReady == c.digReady
    ensures var c3 := Brake(ApplyGravity(CheckDeath(c, t)), keys);
            var sx, sy := Scale(c3.vx, dt), Scale(c3.vy, dt);
            && m.c.rect.x == c3.rect.x + sx && m.c.rect.y == c3.rect.y + sy
            && m.c.vx == ApplyInput(c3, keys, sx, sy).c.vx
            && m.c.vy == ApplyInput(c3, keys, sx, sy).c.vy
    ensures var c3 := Brake(ApplyGravity(CheckDeath(c, t)), keys);
            var a := ApplyInput(c3, keys, Scale(c3.vx, dt), Scale(c3.vy, dt));
            && m.jumped == a.jumped && m.dug == a.dug
            && m.c.state == a.c.state && m.c.jumpReady == a.c.jumpReady && m.c.digReady == a.c.digReady
    ensures m.c.maxSpeed == c.maxSpeed && m.c.gravity == c.gravity && m.c.brake == c.brake && m.c.accel == c.accel
  {
    var c1 := CheckDeath(c, t);
    var c2 := ApplyGravity(c1);
    var c3 := Brake(c2, keys);
    var sx := Scale(c3.vx, dt);
    var sy := Scale(c3.vy, dt);
    var m := ApplyInput(c3, keys, sx, sy);
    Moved(Place(m.c, m.c.rect.x + sx, m.c.rect.y + sy), m.jumped, m.dug)
  }

  /**
   * The one-tick lag: keys that brake alike move the body alike. Holding left
   * instead of right changes the velocity, not this tick's displacement.
   */
  lemma MovePositionLagsInput(c: Character, k1: Keys, k2: Keys, dt: real, t: Screen.Tiles)
    requires SupportRecorded(c)
    requires (k1.left || k1.right) == (k2.left || k2.right) && k1.up == k2.up && k1.down == k2.down
    ensures Move(c, k1, dt, t).c.rect == Move(c, k2, dt, t).c.rect
  {
  }

  /** Left versus right: same displacement, but velocities two accelerations apart. */
  lemma LeftRightDifferOnlyInVelocity(c: Character, dt: real, t: Screen.Tiles)
    requires SupportRecorded(c) && c.accel > 0.0
    requires c.maxSpeed >= 0.0 && c.vx == 0.0 && c.rect.y <= Screen.KillLine(t, c.size)
    ensures var l := Move(c, Keys(true, false, false, false), dt, t).c;
            var r := Move(c, Keys(false, true, false, false), dt, t).c;
            l.rect == r.rect && r.vx - l.vx == 2.0 * c.accel
  {
  }

  /** A respawning character starts the tick at rest, so it stays on the spawn column. */
  lemma RespawnKeepsSpawnColumn(c: Character, keys: Keys, dt: real, t: Screen.Tiles)
    requires SupportRecorded(c) && c.rect.y > Screen.KillLine(t, c.size)
    ensures Move(c, keys, dt, t).c.rect.x == Screen.SpawnX(t) as real
  {
  }

  /** Resting is a fixed point: without input an Idle character stays on top of its platform, at rest. */
  lemma IdleIsStable(c: Character, dt: real, t: Screen.Tiles)
    requires c.state == Idle && c.support.Some?
    ensures var m := Move(c, Keys(false, false, false, false), dt, t);
            && m.c.state == Idle && m.c.vy == 0.0 && m.c.rect.y + c.size == c.support.value.y
            && !m.jumped && !m.dug
  {
  }
}

=== FILE: platforms.dfy ===
/** Platforms and the ordered registry (`controlador_plataformas`) that collisions read. */
module Platforms {
  import opened Geometry

  /** A platform: its kind, its rectangle and whether it is drawn. */
  datatype Platform = Platform(kind: string, rect: Rect, visible: bool)

  /** `switch_visible`: only the drawing flag flips. */
  function SwitchVisible(p: Platform): (q: Platform)
    ensures q.visible == !p.visible && q.rect == p.rect && q.kind == p.kind
  {
    p.(visible := !p.visible)
  }

  /** `agregar_plataforma`: registration appends, keeping the order of the earlier platforms. */
  function Add(reg: seq<Platform>, p: Platform): (r: seq<Platform>)
    ensures |r| == |reg| + 1 && r[..|reg|] == reg && r[|reg|] == p
  {
    reg + [p]
  }

  /** The position of the first registered copy of `p`. */
  function IndexOf(reg: seq<Platform>, p: Platform): (i: nat)
    requires p in reg
    decreases |reg|
    ensures i < |reg| && reg[i] == p && p !in reg[..i]
  {
    if reg[0] == p then 0
    else
      var j := IndexOf(reg[1..], p);
      assert reg[..j + 1] == [reg[0]] + reg[1..][..j];
      j + 1
  }

  /**
   * `remover_plataforma`: the first registered copy of `p` is dropped, the
   * others keep their order; a platform not registered leaves the list alone.
   */
  function Remove(reg: seq<Platform>, p: Platform): (r: seq<Platform>)
    ensures p !in reg ==> r == reg
    ensures p in reg ==> exists i :: 0 <= i < |reg| && reg[i] == p && p !in reg[..i] && r == reg[..i] + reg[i+1..]
    ensures multiset(r) == multiset(reg) - multiset{p}
  {
    if p in reg then
      var i := IndexOf(reg, p);
      assert reg == reg[..i] + [p] + reg[i+1..];
      reg[..i] + reg[i+1..]
    else
      assert multiset(reg)[p] == 0;
      reg
  }

  /** Removing a platform just registered, that was not registered before, undoes the registration. */
  lemma RemoveUndoesAdd(reg: seq<Platform>, p: Platform)
    requires p !in reg
    ensures Remove(Add(reg, p), p) == reg
  {
  }

  /** Appending does not move the first copy of a registered platform. */
  lemma IndexOfAdd(reg: seq<Platform>, p: Platform)
    requires p in reg
    ensures IndexOf(Add(reg, p), p) == IndexOf(reg, p)
  {
    var s := Add(reg, p);
    var i, k := IndexOf(reg, p), IndexOf(s, p);
    assert s[..i] == reg[..i];
    assert s[i] == p;
  }

  /** Removing a platform registered twice drops the earlier copy and keeps the later one. */
  lemma RemoveDropsEarliest(reg: seq<Platform>, p: Platform)
    requires p in reg
    ensures Remove(Add(reg, p), p) == Add(Remove(reg, p), p)
  {
    var s := Add(reg, p);
    var i := IndexOf(reg, p);
    IndexOfAdd(reg, p);
    assert s[..i] == reg[..i];
    assert s[i+1..] == reg[i+1..] + [p];
  }

  /** `get_rects`: the rectangles of the registered platforms, in registration order. */
  function Rects(reg: seq<Platform>): (r: seq<Rect>)
    ensures |r| == |reg|
    ensures forall i :: 0 <= i < |reg| ==> r[i] == reg[i].rect
  {
    seq(|reg|, i requires 0 <= i < |reg| => reg[i].rect)
  }

  /** The rectangles of a registration are the old ones followed by the new one. */
  lemma RectsOfAdd(reg: seq<Platform>, p: Platform)
    ensures Rects(Add(reg, p)) == Rects(reg) + [p.rect]
  {
  }

  /** Visibility is invisible to collisions: toggling any platform leaves the rectangles unchanged. */
  lemma RectsIgnoreVisibility(reg: seq<Platform>, i: int)
    requires 0 <= i < |reg|
    ensures Rects(reg[i := SwitchVisible(reg[i])]) == Rects(reg)
  {
  }
}

=== FILE: screen.dfy ===
/** Tile layout of the play area and the respawn geometry derived from it. */
module Screen {
  import opened Optional
  import GameConstants

  /** The tile grid: square tiles of `tileSize` pixels, the left-over pixels as borders. */
  datatype Tiles = Tiles(tileSize: nat, tilesX: nat, tilesY: nat, borderX: nat, borderY: nat)

  /** Each border is smaller than one (non-empty) tile. */
  predicate Bordered(t: Tiles) {
    t.tileSize > 0 && t.borderX < t.tileSize && t.borderY < t.tileSize
  }

  /** A grid that tiles the screen exactly, each border smaller than one tile. */
  predicate Fits(t: Tiles, width: nat, height: nat) {
    && Bordered(t)
    && t.tilesX * t.tileSize + t.borderX == width
    && t.tilesY * t.tileSize + t.borderY == height
  }

  /** Euclidean division of naturals reassembles its dividend. */
  lemma DivRem(a: nat, b: nat)
    requires b > 0
    ensures (a / b) * b + a % b == a && a % b < b
  {
  }

  /** `q * b <= a < k * b` bounds the quotient: `q < k`. */
  lemma QuotientBelow(q: nat, k: nat, b: nat, a: nat)
    requires b > 0 && q * b <= a < k * b
    ensures q < k
  {
  }

  /**
   * `calculate_tile_size`: the tile edge is a thirtieth of the width, and the
   * grid holds as many whole tiles as fit. A screen narrower than 30 pixels has
   * tile size 0 and the next division fails (None).
   */
  function CalculateTileSize(width: nat, height: nat): (r: Option<Tiles>)
    ensures r.None? <==> width < GameConstants.TileDivisor
    ensures r.Some? ==> Fits(r.value, width, height)
    ensures r.Some? ==> r.value.tileSize == width / GameConstants.TileDivisor
    ensures r.Some? ==> 30 <= r.value.tilesX < 60
    ensures r.Some? && height >= r.value.tileSize ==> r.value.tilesY >= 1
  {
    var size := width / GameConstants.TileDivisor;
    if size == 0 then None
    else
      var tx := width / size;
      var ty := height / size;
      DivRem(width, size);
      DivRem(height, size);
      DivRem(width, 30);
      assert 30 * size <= width < 60 * size;
      QuotientBelow(29, tx + 1, size, width);
      QuotientBelow(tx, 60, size, width);
      Some(Tiles(size, tx, ty, width - tx * size, height - ty * size))
  }

  /** Width and height in pixels of the tiled area. */
  function PlayWidth(t: Tiles): nat { t.tileSize * t.tilesX }
  function PlayHeight(t: Tiles): nat { t.tileSize * t.tilesY }

  /** A character whose top edge is below this line has fallen off the world. */
  function KillLine(t: Tiles, size: real): real {
    PlayHeight(t) as real + size
  }

  /** The respawn point of `muerto`: the centre of the tiled area, offset by half the borders. */
  function SpawnX(t: Tiles): (x: nat)
    ensures t.borderX / 2 <= x <= t.borderX / 2 + PlayWidth(t)
    ensures 2 * (x - t.borderX / 2) <= PlayWidth(t) < 2 * (x - t.borderX / 2) + 2
  {
    t.borderX / 2 + PlayWidth(t) / 2
  }

  function SpawnY(t: Tiles): (y: nat)
    ensures t.borderY / 2 <= y <= t.borderY / 2 + PlayHeight(t)
    ensures 2 * (y - t.borderY / 2) <= PlayHeight(t) < 2 * (y - t.borderY / 2) + 2
  {
    t.borderY / 2 + PlayHeight(t) / 2
  }

  /**
   * On a grid with borders smaller than a tile and at least one tile row, the
   * spawn point lies above the kill line, so a respawned character is not killed again.
   */
  lemma SpawnAboveKillLine(t: Tiles, size: real)
    requires Bordered(t) && t.tilesY >= 1 && size >= 0.0
    ensures (SpawnY(t) as real) <= KillLine(t, size)
  {
    assert PlayHeight(t) >= t.tileSize by {
      assert t.tileSize * t.tilesY - t.tileSize == t.tileSize * (t.tilesY - 1);
    }
    assert SpawnY(t) <= PlayHeight(t);
  }
}
